=== FILE: README.md ===
# libgdx-stagebuilder layout pipeline in Dafny

This project models the core of libgdx-stagebuilder: the code that turns a layout file into a libGDX stage, and the screen controller that rebuilds that stage.

- **Layout-file choice.** A build reads `layout-land/<file>` on a landscape screen (strictly wider than tall) or `layout-port/<file>` otherwise, when that file opens. Otherwise it uses `layout/<file>`, without checking that this file exists.
- **Widget-builder registry.** The registry maps each of the thirteen widget model classes to its builder.
- **Stage build.** `build` parses the file and checks that the first model is a group. It builds the group's children in document order and wraps them in a root group named `AbsoluteLayoutRootGroup`, placed at the game-area origin. The stage uses an extend or stretch viewport. Any failure aborts the whole build.
- **Group build.** `buildGroup` does the same without a stage. It copies the root model's geometry onto the group, times the position multiplier.
- **Async builds.** A single-thread pool runs group builds in submission order. Each task reports its build's outcome to the listener set when it runs, or to nobody if none is set. The success callback is fired inside the task's `try` block. So when the listener throws from `onGroupBuilded`, the `catch` also fires `onGroupBuildFailed` with the listener's exception, and that task delivers two callbacks.
- **Screen controller.** `AbstractScreen` builds its stage from `<ClassSimpleName>.xml` and handles `show`, `resize` and fade-in. On desktop, a per-frame refresh check rebuilds the stage when the layout file's checksum changes.

The libGDX objects become values:
- A stage is a viewport, its actors, its root alpha and its queued actions.
- An actor is a name, a geometry and child actors.
- The file system is a function from paths to "opened with contents" or "failed".

The markup parser, the per-widget builders, the group builder's basic-property copy and the MD5 digest are parameters. Exceptions become `Result` values, or `Step(screen, thrown)` for screen operations, so each operation's state at the moment of the throw is kept. Each screen operation appends the hooks it calls, and every stage it creates, to a trace.

Modules: `Results` (results.dfy), `LayoutFiles` (layout_files.dfy), `Widgets` (widgets.dfy), `StageBuilder` (stage_builder.dfy), `AsyncBuild` (async_build.dfy), `Screens` (screen.dfy).

Behaviour the code does not have, and which the model therefore omits:
- The resize hooks around a hot reload. A hot reload calls only `reloadStage`, not the resize path's `beforeReloadStage`/`afterReloadStage`.
- A fail-safe checksum. A checksum read failure is not treated as "no change"; it propagates as an exception.
- Scaling in `build`. Only `buildGroup` scales the root model's geometry; `build` leaves the root group at the game-area origin with zero size.
- An "actor not found" error. A lookup miss returns null (lookups are not modelled, see below).
- A disposed state.
- A dedicated error for an unregistered model class. It would end in a null-pointer exception, wrapped by `build`. The model calls this `MissingBuilder` and proves the registry never produces it.

## Model

| member | source | states |
|---|---|---|
| LayoutFiles.FileExists | core/src/main/java/net/peakgames/libgdx/stagebuilder/core/builder/StageBuilder.java:196-205 | a file exists exactly when opening it does not fail; any exception, whatever its reason, counts as absence |
| LayoutFiles.OrientationFolder | core/src/main/java/net/peakgames/libgdx/stagebuilder/core/builder/StageBuilder.java:172-173 | landscape is the strict comparison width > height; a square screen uses the portrait folder |
| LayoutFiles.ParseLayoutPathRoundTrip | core/src/main/java/net/peakgames/libgdx/stagebuilder/core/builder/StageBuilder.java:174-187 | a path built from a folder and a file name splits back into exactly that folder and file name |
| LayoutFiles.LayoutPathInjective | core/src/main/java/net/peakgames/libgdx/stagebuilder/core/builder/StageBuilder.java:174-187 | the land, port and default paths of a file are pairwise different, and a path determines its file name |
| LayoutFiles.GetLayoutFile | core/src/main/java/net/peakgames/libgdx/stagebuilder/core/builder/StageBuilder.java:171-189 | the result is the orientation file or the default file; a landscape screen never gets the portrait path and vice versa; a non-default result exists; the orientation file is returned exactly when it opens |
| LayoutFiles.GetLayoutFileFollowsPreferenceOrder | core/src/main/java/net/peakgames/libgdx/stagebuilder/core/builder/StageBuilder.java:171-189 | getLayoutFile equals an independent "first existing in [orientation, default], last one unconditionally" reading, for every file system |
| LayoutFiles.OnlyOrientationFileConsulted | core/src/main/java/net/peakgames/libgdx/stagebuilder/core/builder/StageBuilder.java:196-205 | only whether the orientation file opens matters: file systems that agree on it (whatever the other folders hold or why opening failed) give the same path |
| LayoutFiles.DefaultIsUnchecked | core/src/main/java/net/peakgames/libgdx/stagebuilder/core/builder/StageBuilder.java:187-188 | without an orientation file the default path is returned even when it does not exist |
| Widgets.RegistrationsCoverEveryKind | core/src/main/java/net/peakgames/libgdx/stagebuilder/core/builder/StageBuilder.java:56-70 | each of the thirteen model kinds is registered, with the builder written for that kind |
| Widgets.RegisterWidgetBuilders | core/src/main/java/net/peakgames/libgdx/stagebuilder/core/builder/StageBuilder.java:56-70 | the registry is total, maps each kind to its own builder, and no two kinds share a builder |
| StageBuilder.ReadModels | core/src/main/java/net/peakgames/libgdx/stagebuilder/core/builder/StageBuilder.java:139-140 | the models are the parser's result for the contents of the resolved file; a file that does not open fails as unreadable at that path, and otherwise failure means the contents did not parse |
| StageBuilder.LoadRootModel | core/src/main/java/net/peakgames/libgdx/stagebuilder/core/builder/StageBuilder.java:139-141 | succeeds exactly when the parse succeeds with a non-empty list whose first model is a group, and returns that first model |
| StageBuilder.BuildOne | core/src/main/java/net/peakgames/libgdx/stagebuilder/core/builder/StageBuilder.java:163-164 | a model is built by the builder registered for its own kind; a kind with no builder fails, and a throwing builder's exception becomes the model's failure, with the model's kind and the builder's message |
| StageBuilder.BuildEach | core/src/main/java/net/peakgames/libgdx/stagebuilder/core/builder/StageBuilder.java:80-83 | on success one actor per child, each the registered build of the child at the same position; on failure the reported child is the first failing one, and all before it built |
| StageBuilder.BuildEachOkIffAllBuild | core/src/main/java/net/peakgames/libgdx/stagebuilder/core/builder/StageBuilder.java:161-168 | the child loop succeeds exactly when every child builds |
| StageBuilder.BuildEachAppend | core/src/main/java/net/peakgames/libgdx/stagebuilder/core/builder/StageBuilder.java:160-169 | document order is kept: building a concatenation of siblings gives the concatenation of the separately built siblings |
| StageBuilder.AddActorsToStage | core/src/main/java/net/peakgames/libgdx/stagebuilder/core/builder/StageBuilder.java:160-169 | succeeds iff every model builds, giving them in order; otherwise the error names the first failing model and carries its cause |
| StageBuilder.RegistryNeverMisses | core/src/main/java/net/peakgames/libgdx/stagebuilder/core/builder/StageBuilder.java:163-164 | with the registry the missing-builder failure never occurs, and each actor comes from a builder written for the model's kind |
| StageBuilder.Build | core/src/main/java/net/peakgames/libgdx/stagebuilder/core/builder/StageBuilder.java:137-158 | the stage has exactly one actor, the named root group at the game-area origin, of zero size, holding the root model's children built in order; extend viewport iff aspect ratio kept; succeeds iff the root loads and every child builds; a failure is a stage failure wrapping the load failure, or else the actor failure `addActorsToStage` reports for the first child that does not build |
| StageBuilder.AspectRatioOnlyChoosesViewport | core/src/main/java/net/peakgames/libgdx/stagebuilder/core/builder/StageBuilder.java:143-147 | the aspect-ratio flag does not change whether the build succeeds, the actors, or the failure |
| StageBuilder.UpdateGroupSizeAndPosition | core/src/main/java/net/peakgames/libgdx/stagebuilder/core/builder/StageBuilder.java:129-135 | the group's position and size become the reference model's times the multiplier; its name and children are kept |
| StageBuilder.ScalingDoesNotDrift | core/src/main/java/net/peakgames/libgdx/stagebuilder/core/builder/StageBuilder.java:129-135 | scaling again with the same model and multiplier changes nothing, and the result ignores the group's earlier geometry |
| StageBuilder.BuildGroup | core/src/main/java/net/peakgames/libgdx/stagebuilder/core/builder/StageBuilder.java:72-85 | the group keeps the basic properties, has the root model's geometry times the multiplier, and ends with the children built in order; succeeds iff the root loads and every child builds; a failure is the load failure itself, or else the own exception of the first child that does not build, unwrapped |
| StageBuilder.BuildAgreesWithBuildGroup | core/src/main/java/net/peakgames/libgdx/stagebuilder/core/builder/StageBuilder.java:137-169 | a stage build and a group build of one file succeed together, put the same children under their group, and fail for the same underlying reason |
| AsyncBuild.NoListenerNoCallbacks | core/src/main/java/net/peakgames/libgdx/stagebuilder/core/builder/StageBuilder.java:35-44 | a new builder has no listener, so the tasks queued on it run and deliver nothing, and its pool ends empty |
| AsyncBuild.BuildGroupAsync | core/src/main/java/net/peakgames/libgdx/stagebuilder/core/builder/StageBuilder.java:87-89 | submitting appends the file to the queue and delivers nothing |
| AsyncBuild.SetStageBuilderListener | core/src/main/java/net/peakgames/libgdx/stagebuilder/core/builder/StageBuilder.java:95-97 | replaces the listener and nothing else |
| AsyncBuild.TaskEvent | core/src/main/java/net/peakgames/libgdx/stagebuilder/core/builder/StageBuilder.java:108-113 | the outcome of a build names its file and is "built" with the group exactly when the build succeeds, otherwise "failed" with the build's exception |
| AsyncBuild.Fire | core/src/main/java/net/peakgames/libgdx/stagebuilder/core/builder/StageBuilder.java:117-127 | no listener, no callback; otherwise exactly one callback, to the listener |
| AsyncBuild.RunTask | core/src/main/java/net/peakgames/libgdx/stagebuilder/core/builder/StageBuilder.java:106-127 | with no listener a task delivers nothing; otherwise first the build's outcome, then a failure carrying the listener's exception exactly when the build succeeded and the listener threw from the success callback; every callback names the task's file |
| AsyncBuild.RunNextTask | core/src/main/java/net/peakgames/libgdx/stagebuilder/core/builder/StageBuilder.java:87-89 | the worker removes the oldest task from the queue and appends that task's callbacks |
| AsyncBuild.Deliveries | core/src/main/java/net/peakgames/libgdx/stagebuilder/core/builder/StageBuilder.java:99-127 | a run of tasks delivers nothing without a listener, and with one between one and two callbacks per task |
| AsyncBuild.Drain | core/src/main/java/net/peakgames/libgdx/stagebuilder/core/builder/StageBuilder.java:87-127 | the queue empties, the listener stays, earlier callbacks are kept and each queued task's callbacks follow in submission order; with no listener nothing is delivered |
| AsyncBuild.OneOutcomePerTask | core/src/main/java/net/peakgames/libgdx/stagebuilder/core/builder/StageBuilder.java:106-114 | setting aside failures caused by a throwing listener, there is exactly one outcome callback per task, the outcome of that task's build, in order |
| AsyncBuild.ListenerFailureFollowsItsSuccess | core/src/main/java/net/peakgames/libgdx/stagebuilder/core/builder/StageBuilder.java:108-112 | a failure caused by the listener always comes right after the success callback for the same file |
| AsyncBuild.QuietListenerOneCallbackPerTask | core/src/main/java/net/peakgames/libgdx/stagebuilder/core/builder/StageBuilder.java:106-127 | with a listener that never throws, exactly one callback per task is delivered, in submission order |
| AsyncBuild.CallbacksFollowSubmissionOrder | core/src/main/java/net/peakgames/libgdx/stagebuilder/core/builder/StageBuilder.java:44 | the files named by the outcome callbacks of a drain are exactly the submitted files, in submission order, whatever the listener throws |
| AsyncBuild.DrainIsRepeatedRunNext | core/src/main/java/net/peakgames/libgdx/stagebuilder/core/builder/StageBuilder.java:87-89 | a later submission only appends its own callbacks after those of the earlier ones |
| AsyncBuild.AsyncOutcomeIsBuildGroup | core/src/main/java/net/peakgames/libgdx/stagebuilder/core/builder/StageBuilder.java:107-113 | the i-th outcome callback goes to the listener, names the i-th file, and reports success exactly when buildGroup of that file succeeds |
| Screens.FileName | core/src/main/java/net/peakgames/libgdx/stagebuilder/core/AbstractScreen.java:95-97 | the layout file name is the class's simple name followed by ".xml" |
| Screens.FileNameInjective | core/src/main/java/net/peakgames/libgdx/stagebuilder/core/AbstractScreen.java:95-97 | different screen classes read different layout files |
| Screens.IsLandscapeScreen | core/src/main/java/net/peakgames/libgdx/stagebuilder/core/AbstractScreen.java:87-93 | a game is landscape exactly when it is strictly wider than tall; a square game is not |
| Screens.LandscapeScreenReadsLandscapeFolder | core/src/main/java/net/peakgames/libgdx/stagebuilder/core/AbstractScreen.java:87-93 | when game and resolution helper agree on the size, isLandscape holds exactly when builds look in the landscape folder |
| Screens.IsFadeInEnabled | core/src/main/java/net/peakgames/libgdx/stagebuilder/core/AbstractScreen.java:72-74 | fade-in is on only for a positive duration; the negative-infinity sentinel, zero and negative durations are off |
| Screens.EnableFadeIn | core/src/main/java/net/peakgames/libgdx/stagebuilder/core/AbstractScreen.java:64-66 | fade-in is enabled afterwards exactly when the duration is positive; nothing else changes |
| Screens.DisableFadeIn | core/src/main/java/net/peakgames/libgdx/stagebuilder/core/AbstractScreen.java:68-70 | fade-in is disabled afterwards; nothing else changes |
| Screens.DisableRestoresConstructedState | core/src/main/java/net/peakgames/libgdx/stagebuilder/core/AbstractScreen.java:46-74 | enabling fade-in on a new screen and disabling it again gives back exactly the constructed screen |
| Screens.StageFor | core/src/main/java/net/peakgames/libgdx/stagebuilder/core/AbstractScreen.java:77-85 | a screen's stage uses its own layout file and an extend viewport of the game's current size, holds the root group with the children built in order, and exists iff buildGroup of that file succeeds |
| Screens.NewScreen | core/src/main/java/net/peakgames/libgdx/stagebuilder/core/AbstractScreen.java:46-62 | a new screen has its stage built, generation 1, no stored checksum, the construction time as last check, and fade-in disabled |
| Screens.CreateStage | core/src/main/java/net/peakgames/libgdx/stagebuilder/core/AbstractScreen.java:77-85 | on success the newly built stage is installed, the generation grows by one and only that creation is traced; when the build throws, the old stage stays |
| Screens.LayoutChecksum | core/src/main/java/net/peakgames/libgdx/stagebuilder/core/AbstractScreen.java:251-254 | the checksum is the digest of the file a build would read; it fails only when that file does not open, so never for an orientation-specific file |
| Screens.ReloadStage | core/src/main/java/net/peakgames/libgdx/stagebuilder/core/AbstractScreen.java:256-260 | the newly built stage is installed, then onStageReloaded; nothing but stage, generation and trace changes; a failing build throws its error and leaves the screen unchanged |
| Screens.Show | core/src/main/java/net/peakgames/libgdx/stagebuilder/core/AbstractScreen.java:185-196 | preShow first, postShow last; the stored checksum becomes the file's current one, and a checksum read failure is thrown unchanged, after preShow; with fade-in enabled the root alpha is 0 and one fade of the stored duration is queued, otherwise the stage is untouched; nothing but stage, checksum and trace changes |
| Screens.Resize | core/src/main/java/net/peakgames/libgdx/stagebuilder/core/AbstractScreen.java:144-155 | a non-resizable screen is left unchanged; otherwise beforeReloadStage, the new stage installed, onStageReloaded, afterReloadStage, and the checksum recomputed; if that checksum read throws the new stage stays and the old checksum is kept; a failing build throws after beforeReloadStage with the old stage kept; nothing else changes |
| Screens.Tick | core/src/main/java/net/peakgames/libgdx/stagebuilder/core/AbstractScreen.java:127-142 | outside desktop or within 1000 ms nothing happens; a checksum failure throws and changes nothing; an unchanged checksum only moves the check time; a changed one installs the new stage, calls onStageReloaded, then stores the checksum and the check time; a failing rebuild throws and changes nothing |
| Screens.HotReloadSkipsResizeHooks | core/src/main/java/net/peakgames/libgdx/stagebuilder/core/AbstractScreen.java:127-142 | a refresh check never calls beforeReloadStage or afterReloadStage, and calls onStageReloaded exactly when a due check finds the checksum changed |
| Screens.NoSecondReloadWithoutEdit | core/src/main/java/net/peakgames/libgdx/stagebuilder/core/AbstractScreen.java:130-139 | after a check, a later check with the file unchanged only updates the check time |
| Screens.ShowThenTickNoReload | core/src/main/java/net/peakgames/libgdx/stagebuilder/core/AbstractScreen.java:127-142 | after a successful show, a refresh check with the same file reloads nothing and at most moves the check time |
| Screens.ResizeThenTickNoReload | core/src/main/java/net/peakgames/libgdx/stagebuilder/core/AbstractScreen.java:127-155 | after a successful resize, a refresh check with the same file reloads nothing and at most moves the check time |
| Screens.TickReloadIsReloadStage | core/src/main/java/net/peakgames/libgdx/stagebuilder/core/AbstractScreen.java:132-139 | a due check that finds the file changed is reloadStage followed by storing the new checksum and the check time; nothing is stored when the reload throws |
| Screens.HotReloadIsResizeWithoutHooks | core/src/main/java/net/peakgames/libgdx/stagebuilder/core/AbstractScreen.java:127-155 | a resize and a hot reload of a changed file install the same stage, generation and checksum; the resize only adds beforeReloadStage and afterReloadStage around the reload |

## Left out

- Rendering and input: `render`, `assetManager.update`, `Gdx.input.setInputProcessor` in `createStage`, `show` and `hide`, `disableMultiTouch`, and the log-only `hide`/`pause`/`resume`/`dispose`. These are libGDX side effects with no decision logic.
- The `find*` accessors and `getRoot`. They are unchecked casts over `findActor`, which returns null on a miss.
- `switchOrientation`, `changesOrientation` and the unused orientation suffix constants. They are empty or unused.
- XML parsing, the per-widget builders, the group builder's basic-property copy, viewport arithmetic and MD5. These are parameters, not code.
- Thread-pool mechanics. The pool is a FIFO queue drained in order, and a task sees the listener set when it runs. Listener calls happening on the worker thread are not modelled. An exception thrown from `onGroupBuildFailed` escapes the task and kills the worker thread; the executor starts a new one and the queue goes on. The model records the call and moves to the next task. What the listeners' callbacks do is a parameter.
- `StageBuilder` objects. `createStage` makes a new builder, and so a new pool, each time. The model keeps one constant registry and models the pool on its own.
- Float semantics. Geometry and durations are reals, and `Float.NEGATIVE_INFINITY` is a sentinel. A NaN fade duration is not modelled.
- A screen constructed with a null game. The constructor returns early without a stage.
- Screens.Tick: the clock and the platform type are parameters (`now`, `isDesktop`). Timestamps are unbounded integers, so a wrap-around of the `long` subtraction is not modelled.
- Screens.Resize: the new width and height are only logged. The game passed in already reports the new size.
- Screen hooks. `preShow`, `postShow`, `beforeReloadStage`, `afterReloadStage` and `onStageReloaded` are subclass code. The model assumes they return normally and leave the screen's fields alone; each is a trace entry only. `isResizable()` is a flag fixed when the screen is made. In the source a hook may throw or change the screen. A throwing `onStageReloaded` during a refresh check leaves the new stage installed (`createStage` already ran) and skips storing the checksum and the check time. A `preShow` that calls `enableFadeIn` makes `show` fade with the new duration.
- Logging and the messages of the wrapping exceptions. Each wrapper keeps only the actor name and the cause.

=== FILE: async_build.dfy ===
/**
  Asynchronous group builds. The pool has a single worker thread, so its
  behaviour is that of a FIFO queue of file names drained one task at a time;
  each task builds its group and reports the outcome to whichever listener is
  registered when that task runs. The success callback is fired inside the
  task's try block, so a listener that throws from it receives a failure
  callback for the same file right after.
 */
module AsyncBuild {
  import opened Results
  import opened Widgets
  import opened StageBuilder

  /** Identity of a listener object. */
  type ListenerId = nat

  /** Why a failure callback is fired: the build threw, or the listener's own success callback did. */
  datatype Cause = BuildThrew(failure: Failure) | ListenerThrew(message: string)

  /** A listener callback. */
  datatype Event = GroupBuilt(fileName: string, group: Actor) | GroupBuildFailed(fileName: string, cause: Cause)

  /** One callback delivered to one listener. */
  datatype Delivery = Delivery(listener: ListenerId, event: Event)

  /**
    How the listeners' code behaves, which is not part of this model: the
    message of the exception a listener's callback throws for an event, or
    None when it returns normally.
   */
  type Callbacks = (ListenerId, Event) -> Option<string>

  /**
    The builder's async state: tasks submitted but not yet run, the listener
    currently set (none initially), and the callbacks delivered so far.
   */
  datatype Pool = Pool(pending: seq<string>, listener: Option<ListenerId>, delivered: seq<Delivery>)

  /** A new builder's pool: no task queued, no listener, nothing delivered. */
  const NewPool: Pool := Pool([], None, [])

  /** buildGroupAsync: queue a task; nothing runs and nobody is notified yet. */
  function BuildGroupAsync(p: Pool, fileName: string): (r: Pool)
    ensures |r.pending| == |p.pending| + 1 && r.pending[|p.pending|] == fileName
    ensures r.pending[..|p.pending|] == p.pending
    ensures r.listener == p.listener && r.delivered == p.delivered
  {
    var r := p.(pending := p.pending + [fileName]);
    assert r.pending[..|p.pending|] == p.pending;
    r
  }

  /** setStageBuilderListener. */
  function SetStageBuilderListener(p: Pool, listener: Option<ListenerId>): (r: Pool)
    ensures r.listener == listener
    ensures r.pending == p.pending && r.delivered == p.delivered
  {
    p.(listener := listener)
  }

  /** The outcome of one build: the group on success, the build's exception otherwise. */
  function TaskEvent(buildGroup: string -> Result<Actor, Failure>, fileName: string): (e: Event)
    ensures e.fileName == fileName
    ensures e.GroupBuilt? <==> buildGroup(fileName).Ok?
    ensures e.GroupBuilt? ==> e.group == buildGroup(fileName).value
    ensures e.GroupBuildFailed? ==> e.cause == BuildThrew(buildGroup(fileName).error)
  {
    match buildGroup(fileName)
    case Ok(group) => GroupBuilt(fileName, group)
    case Err(e) => GroupBuildFailed(fileName, BuildThrew(e))
  }

  /** fireOnGroupBuilded / fireOnGroupBuildFailed: deliver only when a listener is set. */
  function Fire(listener: Option<ListenerId>, e: Event): (r: seq<Delivery>)
    ensures listener.None? ==> r == []
    ensures listener.Some? ==> r == [Delivery(listener.value, e)]
  {
    match listener
    case None => []
    case Some(l) => [Delivery(l, e)]
  }

  /** A failure callback caused by the listener's own success callback throwing. */
  predicate IsListenerFailure(d: Delivery) {
    d.event.GroupBuildFailed? && d.event.cause.ListenerThrew?
  }

  /**
    GroupBuildingTask.run: the callbacks one task delivers. The outcome of the
    build first; when that was a success and the listener threw from it, the
    catch block fires a failure carrying the listener's exception. An
    exception thrown from a failure callback escapes the task and ends it.
   */
  function RunTask(listener: Option<ListenerId>, buildGroup: string -> Result<Actor, Failure>,
                   callbacks: Callbacks, fileName: string): (r: seq<Delivery>)
    ensures listener.None? ==> r == []
    ensures listener.Some? ==> 1 <= |r| <= 2 && r[0] == Delivery(listener.value, TaskEvent(buildGroup, fileName))
    ensures |r| == 2 <==> listener.Some? && buildGroup(fileName).Ok?
                          && callbacks(listener.value, TaskEvent(buildGroup, fileName)).Some?
    ensures |r| == 2 ==> r[1] == Delivery(listener.value,
                                          GroupBuildFailed(fileName, ListenerThrew(callbacks(listener.value, r[0].event).value)))
    ensures forall k :: 0 <= k < |r| ==> r[k].event.fileName == fileName
    ensures forall k :: 0 <= k < |r| ==> (IsListenerFailure(r[k]) <==> k == 1)
  {
    var e := TaskEvent(buildGroup, fileName);
    var first := Fire(listener, e);
    if listener.Some? && e.GroupBuilt? && callbacks(listener.value, e).Some? then
      first + Fire(listener, GroupBuildFailed(fileName, ListenerThrew(callbacks(listener.value, e).value)))
    else first
  }

  /** The worker takes the oldest task and runs it. */
  function RunNextTask(p: Pool, buildGroup: string -> Result<Actor, Failure>, callbacks: Callbacks): (r: Pool)
    requires |p.pending| > 0
    ensures r.pending == p.pending[1..] && r.listener == p.listener
    ensures r.delivered == p.delivered + RunTask(p.listener, buildGroup, callbacks, p.pending[0])
  {
    Pool(p.pending[1..], p.listener, p.delivered + RunTask(p.listener, buildGroup, callbacks, p.pending[0]))
  }

  /**
    Reference reading of a run of tasks: the callbacks of each task in turn.
    With a listener set there are between one and two per task; with none,
    there are none.
   */
  function Deliveries(listener: Option<ListenerId>, buildGroup: string -> Result<Actor, Failure>,
                      callbacks: Callbacks, files: seq<string>): (r: seq<Delivery>)
    ensures listener.None? ==> r == []
    ensures listener.Some? ==> |files| <= |r| <= 2 * |files|
    decreases |files|
  {
    if |files| == 0 then []
    else RunTask(listener, buildGroup, callbacks, files[0]) + Deliveries(listener, buildGroup, callbacks, files[1..])
  }

  /** The worker runs until the queue is empty, delivering the callbacks of every queued task in order. */
  function Drain(p: Pool, buildGroup: string -> Result<Actor, Failure>, callbacks: Callbacks): (r: Pool)
    ensures r.pending == [] && r.listener == p.listener
    ensures r.delivered == p.delivered + Deliveries(p.listener, buildGroup, callbacks, p.pending)
    ensures p.listener.None? ==> r.delivered == p.delivered
    decreases |p.pending|
  {
    if |p.pending| == 0 then p
    else
      var q := RunNextTask(p, buildGroup, callbacks);
      var r := Drain(q, buildGroup, callbacks);
      assert r.delivered == p.delivered + Deliveries(p.listener, buildGroup, callbacks, p.pending) by {
        assert q.pending == p.pending[1..];
        assert r.delivered == (p.delivered + RunTask(p.listener, buildGroup, callbacks, p.pending[0]))
                              + Deliveries(p.listener, buildGroup, callbacks, q.pending);
      }
      r
  }

  /**
    Until a listener is set, queued builds run but nobody hears of them: a new
    builder's tasks deliver nothing.
   */
  lemma NoListenerNoCallbacks(files: seq<string>, buildGroup: string -> Result<Actor, Failure>, callbacks: Callbacks)
    ensures var p := NewPool.(pending := files);
            Drain(p, buildGroup, callbacks) == NewPool
  {
  }

  /** The callbacks that report a build's own outcome: all but the failures caused by a throwing listener. */
  function BuildOutcomes(ds: seq<Delivery>): (r: seq<Delivery>)
    ensures |r| <= |ds|
    ensures forall k :: 0 <= k < |r| ==> !IsListenerFailure(r[k])
  {
    if |ds| == 0 then []
    else if IsListenerFailure(ds[0]) then BuildOutcomes(ds[1..])
    else [ds[0]] + BuildOutcomes(ds[1..])
  }

  lemma {:induction false} BuildOutcomesAppend(a: seq<Delivery>, b: seq<Delivery>)
    ensures BuildOutcomes(a + b) == BuildOutcomes(a) + BuildOutcomes(b)
    decreases |a|
  {
    if |a| == 0 {
      assert a + b == b;
    } else {
      assert (a + b)[0] == a[0];
      assert (a + b)[1..] == a[1..] + b;
      BuildOutcomesAppend(a[1..], b);
    }
  }

  /**
    Setting aside the failures a throwing listener causes, a run of tasks
    reports exactly one outcome per task, in order: the outcome of that task's
    build.
   */
  lemma {:induction false} OneOutcomePerTask(l: ListenerId, buildGroup: string -> Result<Actor, Failure>,
                                             callbacks: Callbacks, files: seq<string>)
    ensures var outcomes := BuildOutcomes(Deliveries(Some(l), buildGroup, callbacks, files));
            && |outcomes| == |files|
            && forall i :: 0 <= i < |files| ==> outcomes[i] == Delivery(l, TaskEvent(buildGroup, files[i]))
    decreases |files|
  {
    if |files| > 0 {
      var first := RunTask(Some(l), buildGroup, callbacks, files[0]);
      var rest := Deliveries(Some(l), buildGroup, callbacks, files[1..]);
      BuildOutcomesAppend(first, rest);
      assert BuildOutcomes(first) == [Delivery(l, TaskEvent(buildGroup, files[0]))] by {
        assert !IsListenerFailure(first[0]);
        assert first[1..] == [] || (|first[1..]| == 1 && IsListenerFailure(first[1..][0]));
      }
      OneOutcomePerTask(l, buildGroup, callbacks, files[1..]);
    }
  }

  /** Every failure caused by the listener comes right after the success callback of the same file. */
  predicate ListenerFailuresFollowSuccess(ds: seq<Delivery>) {
    forall k :: 0 <= k < |ds| && IsListenerFailure(ds[k]) ==>
      k > 0 && ds[k - 1].event.GroupBuilt? && ds[k - 1].event.fileName == ds[k].event.fileName
  }

  /** A failure caused by the listener never arrives on its own. */
  lemma {:induction false} ListenerFailureFollowsItsSuccess(listener: Option<ListenerId>, buildGroup: string -> Result<Actor, Failure>,
                                                            callbacks: Callbacks, files: seq<string>)
    ensures ListenerFailuresFollowSuccess(Deliveries(listener, buildGroup, callbacks, files))
    decreases |files|
  {
    if |files| > 0 {
      var first := RunTask(listener, buildGroup, callbacks, files[0]);
      var rest := Deliveries(listener, buildGroup, callbacks, files[1..]);
      ListenerFailureFollowsItsSuccess(listener, buildGroup, callbacks, files[1..]);
      var ds := first + rest;
      forall k | 0 <= k < |ds| && IsListenerFailure(ds[k])
        ensures k > 0 && ds[k - 1].event.GroupBuilt? && ds[k - 1].event.fileName == ds[k].event.fileName
      {
        if k < |first| {
          assert ds[k] == first[k] && IsListenerFailure(first[k]);
          assert k == 1 && |first| == 2;
          assert ds[0] == first[0] && first[0].event == TaskEvent(buildGroup, files[0]);
        } else {
          var j := k - |first|;
          assert ds[k] == rest[j] && IsListenerFailure(rest[j]);
          assert ds[k - 1] == rest[j - 1];
        }
      }
    }
  }

  /**
    With a listener whose callbacks never throw, exactly one callback per
    task is delivered, the outcome of its build, in submission order.
   */
  lemma {:induction false} QuietListenerOneCallbackPerTask(l: ListenerId, buildGroup: string -> Result<Actor, Failure>,
                                                           callbacks: Callbacks, files: seq<string>)
    requires forall e :: callbacks(l, e).None?
    ensures var ds := Deliveries(Some(l), buildGroup, callbacks, files);
            && |ds| == |files|
            && forall i :: 0 <= i < |files| ==> ds[i] == Delivery(l, TaskEvent(buildGroup, files[i]))
    decreases |files|
  {
    if |files| > 0 {
      assert |RunTask(Some(l), buildGroup, callbacks, files[0])| == 1 by {
        assert callbacks(l, TaskEvent(buildGroup, files[0])).None?;
      }
      QuietListenerOneCallbackPerTask(l, buildGroup, callbacks, files[1..]);
    }
  }

  /** The file names of a run of callbacks, in delivery order. */
  function FileNames(ds: seq<Delivery>): (names: seq<string>)
    ensures |names| == |ds|
    ensures forall k :: 0 <= k < |ds| ==> names[k] == ds[k].event.fileName
  {
    if |ds| == 0 then [] else [ds[0].event.fileName] + FileNames(ds[1..])
  }

  /**
    One build outcome per task, in submission order: the files named by the
    outcome callbacks a drain delivers are the queued files, in the order
    queued.
   */
  lemma CallbacksFollowSubmissionOrder(p: Pool, buildGroup: string -> Result<Actor, Failure>, callbacks: Callbacks)
    requires p.listener.Some?
    ensures FileNames(BuildOutcomes(Drain(p, buildGroup, callbacks).delivered[|p.delivered|..])) == p.pending
  {
    var ds := Drain(p, buildGroup, callbacks).delivered;
    assert ds[|p.delivered|..] == Deliveries(p.listener, buildGroup, callbacks, p.pending);
    OneOutcomePerTask(p.listener.value, buildGroup, callbacks, p.pending);
  }

  /** Running the queue task by task and running it to exhaustion agree. */
  lemma {:induction false} DrainIsRepeatedRunNext(p: Pool, buildGroup: string -> Result<Actor, Failure>,
                                                  callbacks: Callbacks, fileName: string)
    ensures Drain(BuildGroupAsync(p, fileName), buildGroup, callbacks)
            == RunNextTask(Drain(p, buildGroup, callbacks).(pending := [fileName]), buildGroup, callbacks)
    decreases |p.pending|
  {
    if |p.pending| > 0 {
      var q := RunNextTask(p, buildGroup, callbacks);
      assert BuildGroupAsync(p, fileName).pending[1..] == q.pending + [fileName];
      assert RunNextTask(BuildGroupAsync(p, fileName), buildGroup, callbacks) == BuildGroupAsync(q, fileName);
      DrainIsRepeatedRunNext(q, buildGroup, callbacks, fileName);
    } else {
      assert BuildGroupAsync(p, fileName).pending[1..] == [];
    }
  }

  /**
    Asynchronous builds of a queue of files report, in order, the outcome of
    the synchronous group build of each file.
   */
  lemma AsyncOutcomeIsBuildGroup(res: Resolution, col: Collaborators, buildGroup: string -> Result<Actor, Failure>,
                                 callbacks: Callbacks, p: Pool, i: nat)
    requires forall f :: buildGroup(f) == BuildGroup(res, col, f)
    requires p.listener.Some? && i < |p.pending|
    ensures var outcomes := BuildOutcomes(Drain(p, buildGroup, callbacks).delivered[|p.delivered|..]);
            && i < |outcomes|
            && outcomes[i].listener == p.listener.value
            && outcomes[i].event.fileName == p.pending[i]
            && (outcomes[i].event.GroupBuilt? <==> BuildGroup(res, col, p.pending[i]).Ok?)
  {
    var ds := Drain(p, buildGroup, callbacks).delivered;
    assert ds[|p.delivered|..] == Deliveries(p.listener, buildGroup, callbacks, p.pending);
    OneOutcomePerTask(p.listener.value, buildGroup, callbacks, p.pending);
  }
}

=== FILE: layout_files.dfy ===
/**
  Choice of the layout file a build reads: an orientation-specific folder when
  the file exists there, otherwise the default folder, unchecked.
 */
module LayoutFiles {
  import opened Results

  const LandscapeLayoutFolder: string := "layout-land"
  const PortraitLayoutFolder: string := "layout-port"
  const DefaultLayoutFolder: string := "layout"

  datatype Folder = Landscape | Portrait | Default

  function FolderName(f: Folder): string {
    match f
    case Landscape => LandscapeLayoutFolder
    case Portrait => PortraitLayoutFolder
    case Default => DefaultLayoutFolder
  }

  /** The internal path `<folder>/<fileName>`. */
  function LayoutPath(f: Folder, fileName: string): string {
    FolderName(f) + "/" + fileName
  }

  /** What opening an internal file for reading gives: its contents, or an exception. */
  datatype OpenOutcome = Opened(contents: string) | OpenFailed(reason: string)

  /** The bundled files as the application sees them at one moment. */
  type FileSystem = string -> OpenOutcome

  /** A file exists when opening it succeeds; any exception counts as absence. */
  function FileExists(fs: FileSystem, path: string): (present: bool)
    ensures present <==> !fs(path).OpenFailed?
  {
    fs(path).Opened?
  }

  /** Landscape is a strict comparison: a square screen is portrait. */
  predicate IsLandscape(screenWidth: int, screenHeight: int) {
    screenWidth > screenHeight
  }

  /** The only orientation-specific folder a build for these dimensions looks at. */
  function OrientationFolder(screenWidth: int, screenHeight: int): (f: Folder)
    ensures f != Default
    ensures f == Landscape <==> IsLandscape(screenWidth, screenHeight)
  {
    if IsLandscape(screenWidth, screenHeight) then Landscape else Portrait
  }

  predicate HasPrefix(path: string, prefix: string) {
    |prefix| <= |path| && path[..|prefix|] == prefix
  }

  /** Split an internal path back into its layout folder and file name. */
  function ParseLayoutPath(path: string): Option<(Folder, string)> {
    if HasPrefix(path, LandscapeLayoutFolder + "/") then Some((Landscape, path[|LandscapeLayoutFolder| + 1..]))
    else if HasPrefix(path, PortraitLayoutFolder + "/") then Some((Portrait, path[|PortraitLayoutFolder| + 1..]))
    else if HasPrefix(path, DefaultLayoutFolder + "/") then Some((Default, path[|DefaultLayoutFolder| + 1..]))
    else None
  }

  /** A layout path names its folder and its file unambiguously. */
  lemma ParseLayoutPathRoundTrip(folder: Folder, fileName: string)
    ensures ParseLayoutPath(LayoutPath(folder, fileName)) == Some((folder, fileName))
  {
    var path := LayoutPath(folder, fileName);
    var n := |FolderName(folder)| + 1;
    assert path[..n] == FolderName(folder) + "/";
    assert path[n..] == fileName;
    match folder
    case Landscape =>
    case Portrait =>
      assert path[7] == 'p';
      assert !HasPrefix(path, LandscapeLayoutFolder + "/");
    case Default =>
      assert path[6] == '/';
      assert !HasPrefix(path, LandscapeLayoutFolder + "/");
      assert !HasPrefix(path, PortraitLayoutFolder + "/");
  }

  /** Paths of different folders, or of different file names, never coincide. */
  lemma LayoutPathInjective(a: Folder, b: Folder, f: string, g: string)
    ensures LayoutPath(a, f) == LayoutPath(b, g) ==> a == b && f == g
  {
    ParseLayoutPathRoundTrip(a, f);
    ParseLayoutPathRoundTrip(b, g);
  }

  /**
    getLayoutFile: the orientation-specific file when it exists, else the
    default-folder path, returned without any existence check.
   */
  function GetLayoutFile(screenWidth: int, screenHeight: int, fs: FileSystem, fileName: string): (path: string)
    ensures path == LayoutPath(OrientationFolder(screenWidth, screenHeight), fileName)
            || path == LayoutPath(Default, fileName)
    ensures IsLandscape(screenWidth, screenHeight) ==> path != LayoutPath(Portrait, fileName)
    ensures !IsLandscape(screenWidth, screenHeight) ==> path != LayoutPath(Landscape, fileName)
    ensures path != LayoutPath(Default, fileName) ==> FileExists(fs, path)
    ensures path == LayoutPath(OrientationFolder(screenWidth, screenHeight), fileName)
            <==> FileExists(fs, LayoutPath(OrientationFolder(screenWidth, screenHeight), fileName))
  {
    var orientation := OrientationFolder(screenWidth, screenHeight);
    var specific := LayoutPath(orientation, fileName);
    LayoutPathInjective(orientation, Default, fileName, fileName);
    LayoutPathInjective(Landscape, Portrait, fileName, fileName);
    if FileExists(fs, specific) then specific else LayoutPath(Default, fileName)
  }

  /**
    Reference reading of the folder rule: try the candidates in preference
    order and take the first whose file exists; the last candidate is taken
    unconditionally.
   */
  function FirstAvailable(candidates: seq<Folder>, fs: FileSystem, fileName: string): (f: Folder)
    requires |candidates| > 0
    ensures f in candidates
    decreases |candidates|
  {
    if |candidates| == 1 || FileExists(fs, LayoutPath(candidates[0], fileName)) then candidates[0]
    else FirstAvailable(candidates[1..], fs, fileName)
  }

  function PreferenceOrder(screenWidth: int, screenHeight: int): seq<Folder> {
    [OrientationFolder(screenWidth, screenHeight), Default]
  }

  /** getLayoutFile agrees with the preference-order reading for every file system. */
  lemma GetLayoutFileFollowsPreferenceOrder(screenWidth: int, screenHeight: int, fs: FileSystem, fileName: string)
    ensures GetLayoutFile(screenWidth, screenHeight, fs, fileName)
            == LayoutPath(FirstAvailable(PreferenceOrder(screenWidth, screenHeight), fs, fileName), fileName)
  {
  }

  /**
    Only the existence of the orientation-specific file is consulted: two
    file systems that agree on it give the same path, whatever else they hold
    (the other orientation's folder, the default folder, the failure reasons).
   */
  lemma OnlyOrientationFileConsulted(screenWidth: int, screenHeight: int, fs1: FileSystem, fs2: FileSystem, fileName: string)
    requires FileExists(fs1, LayoutPath(OrientationFolder(screenWidth, screenHeight), fileName))
             == FileExists(fs2, LayoutPath(OrientationFolder(screenWidth, screenHeight), fileName))
    ensures GetLayoutFile(screenWidth, screenHeight, fs1, fileName) == GetLayoutFile(screenWidth, screenHeight, fs2, fileName)
  {
  }

  /** When the orientation-specific file is absent the default path is returned, even if it is absent too. */
  lemma DefaultIsUnchecked(screenWidth: int, screenHeight: int, fs: FileSystem, fileName: string)
    requires !FileExists(fs, LayoutPath(OrientationFolder(screenWidth, screenHeight), fileName))
    ensures GetLayoutFile(screenWidth, screenHeight, fs, fileName) == LayoutPath(Default, fileName)
  {
  }
}

=== FILE: results.dfy ===
/** Failure-carrying values shared by the stage builder modules. */
module Results {

  /** A value that may be absent; stands for a Java reference that may be null. */
  datatype Option<+T> = None | Some(value: T)

  /** The outcome of a step that either produces a value or throws. */
  datatype Result<+T, +E> = Ok(value: T) | Err(error: E) {

    predicate IsFailure() {
      Err?
    }

    function PropagateFailure<U>(): Result<U, E>
      requires Err?
    {
      Err(error)
    }

    function Extract(): T
      requires Ok?
    {
      value
    }

    /** The exception thrown, if any. */
    function Thrown(): Option<E> {
      match this
      case Ok(_) => None
      case Err(e) => Some(e)
    }
  }
}

=== FILE: screen.dfy ===
/**
  The screen controller: it owns one stage built from the screen's own layout
  file, rebuilds it on resize (when the screen allows it) and, on desktop, on a
  change of the layout file's checksum noticed by a polling check run once per
  rendered frame. Every hook the controller calls, and every stage it
  creates, is appended to the screen's trace.
 */
module Screens {
  import opened Results
  import opened LayoutFiles
  import opened Widgets
  import opened StageBuilder

  const ScreenRefreshCheckPeriodMs: int := 1000
  const KeepAspectRatio: bool := true

  /** A float field that is either negative infinity or a finite value. */
  datatype Duration = NegativeInfinity | Seconds(value: real)

  /** The overridable hooks, and the creation of a new stage, in call order. */
  datatype Call =
    | PreShow
    | PostShow
    | BeforeReloadStage
    | AfterReloadStage
    | OnStageReloaded
    | StageCreated(generation: nat)

  /**
    The game as a screen sees it at one moment: its size, its resolution
    helper, the build collaborators, and the digest used for checksums.
   */
  datatype Game = Game(
    width: real,
    height: real,
    resolution: Resolution,
    collaborators: Collaborators,
    md5: string -> string)

  /**
    A screen: the simple name of its class, whether it accepts resizes, the
    installed stage and how many stages have been created so far, the stored
    layout checksum (null until first computed), the time of the last refresh
    check, the fade-in duration, and the trace of calls.
   */
  datatype Screen = Screen(
    className: string,
    resizable: bool,
    stage: Stage,
    generation: nat,
    checksum: Option<string>,
    lastRefreshCheck: int,
    fadeInDuration: Duration,
    trace: seq<Call>)

  /** The state after an operation and the exception it threw, if any. */
  datatype Step = Step(screen: Screen, thrown: Option<Failure>)

  /** getFileName: `<ClassSimpleName>.xml`. */
  function FileName(className: string): (f: string)
    ensures |f| == |className| + 4
    ensures f[..|className|] == className && f[|className|..] == ".xml"
  {
    className + ".xml"
  }

  /** Different screen classes read different layout files. */
  lemma FileNameInjective(a: string, b: string)
    ensures FileName(a) == FileName(b) ==> a == b
  {
  }

  /** isLandscape: strictly wider than tall, so a square game and a tall one are not landscape. */
  function IsLandscapeScreen(game: Game): (landscape: bool)
    ensures landscape ==> game.width > game.height
    ensures game.width > game.height ==> landscape
    ensures game.width == game.height ==> !landscape
  {
    game.width > game.height
  }

  /**
    When the game and its resolution helper report the same size, the screen
    is landscape exactly when a build looks in the landscape folder.
   */
  lemma LandscapeScreenReadsLandscapeFolder(game: Game)
    requires game.width == game.resolution.screenWidth as real
    requires game.height == game.resolution.screenHeight as real
    ensures IsLandscapeScreen(game) <==> OrientationFolder(game.resolution.screenWidth, game.resolution.screenHeight) == Landscape
  {
  }

  /** isFadeInEnabled: a strictly positive duration; the negative-infinity sentinel, zero and negative durations are off. */
  function IsFadeInEnabled(s: Screen): (enabled: bool)
    ensures s.fadeInDuration == NegativeInfinity ==> !enabled
    ensures enabled ==> s.fadeInDuration.Seconds? && s.fadeInDuration.value > 0.0
  {
    s.fadeInDuration.Seconds? && s.fadeInDuration.value > 0.0
  }

  /** enableFadeIn: store the duration; only a positive one actually enables the effect. */
  function EnableFadeIn(s: Screen, duration: real): (r: Screen)
    ensures IsFadeInEnabled(r) <==> duration > 0.0
    ensures r.fadeInDuration == Seconds(duration)
    ensures r.(fadeInDuration := s.fadeInDuration) == s
  {
    s.(fadeInDuration := Seconds(duration))
  }

  /** disableFadeIn: back to negative infinity. */
  function DisableFadeIn(s: Screen): (r: Screen)
    ensures !IsFadeInEnabled(r)
    ensures r.(fadeInDuration := s.fadeInDuration) == s
  {
    s.(fadeInDuration := NegativeInfinity)
  }


  /**
    The stage a screen of this class builds: its own layout file, an
    aspect-preserving viewport of the game's current size. It exists exactly
    when a group build of the same file would succeed.
   */
  function StageFor(className: string, game: Game): (r: Result<Stage, Failure>)
    ensures r.Ok? ==> r.value.viewport == ExtendViewport(game.width, game.height)
    ensures r.Ok? <==> BuildGroup(game.resolution, game.collaborators, FileName(className)).Ok?
    ensures r.Ok? ==> |r.value.actors| == 1 && IsRootGroup(r.value.actors[0], game.resolution)
    ensures r.Ok? ==> BuiltInOrder(RegisterWidgetBuilders(), game.collaborators.buildActor,
                                   LoadRootModel(game.resolution, game.collaborators, FileName(className)).value.children,
                                   r.value.actors[0].children)
    ensures r.Err? ==> r.error.StageFailed?
  {
    BuildAgreesWithBuildGroup(game.resolution, game.collaborators, FileName(className), game.width, game.height, KeepAspectRatio);
    Build(game.resolution, game.collaborators, FileName(className), game.width, game.height, KeepAspectRatio)
  }

  /**
    The constructor: the refresh timestamp is the construction time, the stage
    is built at once, fade-in starts disabled and no checksum is stored yet.
   */
  function NewScreen(className: string, resizable: bool, game: Game, now: int): (r: Result<Screen, Failure>)
    ensures r.Ok? <==> StageFor(className, game).Ok?
    ensures r.Ok? ==> && r.value.className == className
                      && r.value.resizable == resizable
                      && r.value.stage == StageFor(className, game).value
                      && r.value.generation == 1
                      && r.value.checksum.None?
                      && r.value.lastRefreshCheck == now
                      && !IsFadeInEnabled(r.value)
                      && r.value.trace == [StageCreated(1)]
  {
    match StageFor(className, game)
    case Err(e) => Err(e)
    case Ok(stage) => Ok(Screen(className, resizable, stage, 1, None, now, NegativeInfinity, [StageCreated(1)]))
  }

  /**
    createStage: replace the installed stage by a newly built one. When the
    build throws, the old stage stays installed.
   */
  function CreateStage(s: Screen, game: Game): (r: Result<Screen, Failure>)
    ensures r.Ok? <==> StageFor(s.className, game).Ok?
    ensures r.Ok? ==> && r.value.stage == StageFor(s.className, game).value
                      && r.value.generation == s.generation + 1
                      && r.value.trace == s.trace + [StageCreated(s.generation + 1)]
                      && r.value.(stage := s.stage, generation := s.generation, trace := s.trace) == s
    ensures r.Err? ==> r.error == StageFor(s.className, game).error
  {
    match StageFor(s.className, game)
    case Err(e) => Err(e)
    case Ok(stage) =>
      Ok(s.(stage := stage, generation := s.generation + 1, trace := s.trace + [StageCreated(s.generation + 1)]))
  }

  /**
    calculateLayoutFileChecksum: the digest of the file a build would read. A
    read failure is not caught; it can only happen for the default-folder
    file, since an orientation-specific file is chosen only after it opened.
   */
  function LayoutChecksum(className: string, game: Game): (r: Result<string, Failure>)
    ensures var fs := game.collaborators.fs;
            var path := LayoutFileFor(game.resolution, fs, FileName(className));
            && (r.Ok? <==> fs(path).Opened?)
            && (r.Ok? ==> r.value == game.md5(fs(path).contents))
            && (path != LayoutPath(Default, FileName(className)) ==> r.Ok?)
  {
    var path := LayoutFileFor(game.resolution, game.collaborators.fs, FileName(className));
    match game.collaborators.fs(path)
    case Opened(contents) => Ok(game.md5(contents))
    case OpenFailed(_) => Err(Unreadable(path))
  }

  /** reloadStage: a new stage, then onStageReloaded. */
  function ReloadStage(s: Screen, game: Game): (r: Step)
    ensures r.thrown.None? <==> StageFor(s.className, game).Ok?
    ensures r.thrown.None? ==> && r.screen.stage == StageFor(s.className, game).value
                               && r.screen.generation == s.generation + 1
                               && r.screen.trace == s.trace + [StageCreated(s.generation + 1), OnStageReloaded]
                               && r.screen.(stage := s.stage, generation := s.generation, trace := s.trace) == s
    ensures r.thrown.Some? ==> r.screen == s && r.thrown == Some(StageFor(s.className, game).error)
  {
    match CreateStage(s, game)
    case Err(e) => Step(s, Some(e))
    case Ok(created) => Step(created.(trace := created.trace + [OnStageReloaded]), None)
  }

  /**
    show: preShow first; the fade-in if enabled; the checksum of the layout
    file stored; postShow last.
   */
  function Show(s: Screen, game: Game): (r: Step)
    ensures |r.screen.trace| > |s.trace| && r.screen.trace[..|s.trace|] == s.trace && r.screen.trace[|s.trace|] == PreShow
    ensures r.thrown == LayoutChecksum(s.className, game).Thrown()
    ensures r.thrown.None? ==> && r.screen.trace == s.trace + [PreShow, PostShow]
                               && r.screen.checksum == Some(LayoutChecksum(s.className, game).value)
    ensures r.thrown.Some? ==> r.screen.trace == s.trace + [PreShow] && r.screen.checksum == s.checksum
    ensures IsFadeInEnabled(s) ==> && r.screen.stage.rootAlpha == 0.0
                                   && r.screen.stage.actions == s.stage.actions + [FadeIn(s.fadeInDuration.value)]
    ensures !IsFadeInEnabled(s) ==> r.screen.stage == s.stage
    ensures r.screen.stage.viewport == s.stage.viewport && r.screen.stage.actors == s.stage.actors
    ensures r.screen.(stage := s.stage, checksum := s.checksum, trace := s.trace) == s
  {
    var before := s.(trace := s.trace + [PreShow]);
    var faded :=
      if IsFadeInEnabled(before) then
        before.(stage := before.stage.(rootAlpha := 0.0, actions := before.stage.actions + [FadeIn(before.fadeInDuration.value)]))
      else before;
    match LayoutChecksum(s.className, game)
    case Err(e) => Step(faded, Some(e))
    case Ok(sum) => Step(faded.(checksum := Some(sum), trace := faded.trace + [PostShow]), None)
  }

  /**
    resize: for a resizable screen, beforeReloadStage, a reload,
    afterReloadStage, then the checksum recomputed; otherwise nothing at all.
   */
  function Resize(s: Screen, game: Game, newWidth: int, newHeight: int): (r: Step)
    ensures !s.resizable ==> r == Step(s, None)
    ensures s.resizable ==> |r.screen.trace| > |s.trace| && r.screen.trace[..|s.trace|] == s.trace
                            && r.screen.trace[|s.trace|] == BeforeReloadStage
    ensures s.resizable ==> (r.thrown.None? <==> StageFor(s.className, game).Ok? && LayoutChecksum(s.className, game).Ok?)
    ensures s.resizable && StageFor(s.className, game).Ok? ==>
              && r.screen.stage == StageFor(s.className, game).value
              && r.screen.generation == s.generation + 1
              && r.screen.trace == s.trace + [BeforeReloadStage, StageCreated(s.generation + 1), OnStageReloaded, AfterReloadStage]
              && r.screen.(stage := s.stage, generation := s.generation, trace := s.trace, checksum := s.checksum) == s
              && r.thrown == LayoutChecksum(s.className, game).Thrown()
              && (LayoutChecksum(s.className, game).Ok? ==> r.screen.checksum == Some(LayoutChecksum(s.className, game).value))
              && (LayoutChecksum(s.className, game).Err? ==> r.screen.checksum == s.checksum)
    ensures s.resizable && StageFor(s.className, game).Err? ==>
              r == Step(s.(trace := s.trace + [BeforeReloadStage]), Some(StageFor(s.className, game).error))
  {
    if !s.resizable then Step(s, None)
    else
      var before := s.(trace := s.trace + [BeforeReloadStage]);
      var reloaded := ReloadStage(before, game);
      if reloaded.thrown.Some? then reloaded
      else
        var after := reloaded.screen.(trace := reloaded.screen.trace + [AfterReloadStage]);
        match LayoutChecksum(s.className, game)
        case Err(e) => Step(after, Some(e))
        case Ok(sum) => Step(after.(checksum := Some(sum)), None)
  }

  /** Whether a frame at `now` runs the refresh check: desktop only, strictly more than the period since the last one. */
  predicate RefreshDue(s: Screen, now: int, isDesktop: bool) {
    isDesktop && now - s.lastRefreshCheck > ScreenRefreshCheckPeriodMs
  }

  /**
    refreshScreenIfNecessary, run once per rendered frame: when a check is
    due, reload iff the layout file's checksum differs from the stored one,
    store the new checksum, and record the time of the check whether or not
    anything changed.
   */
  function Tick(s: Screen, game: Game, now: int, isDesktop: bool): (r: Step)
    ensures !RefreshDue(s, now, isDesktop) ==> r == Step(s, None)
    ensures r.thrown.Some? ==> r.screen == s
    ensures RefreshDue(s, now, isDesktop) && LayoutChecksum(s.className, game).Err? ==>
              r.thrown == Some(LayoutChecksum(s.className, game).error)
    ensures RefreshDue(s, now, isDesktop) && r.thrown.None? ==>
              && LayoutChecksum(s.className, game).Ok?
              && r.screen.lastRefreshCheck == now
              && r.screen.checksum == Some(LayoutChecksum(s.className, game).value)
    ensures RefreshDue(s, now, isDesktop) && LayoutChecksum(s.className, game).Ok? && StageFor(s.className, game).Ok? ==>
              r.thrown.None?
    ensures RefreshDue(s, now, isDesktop) && LayoutChecksum(s.className, game).Ok?
            && s.checksum == Some(LayoutChecksum(s.className, game).value) ==>
              r == Step(s.(lastRefreshCheck := now), None)
    ensures RefreshDue(s, now, isDesktop) && LayoutChecksum(s.className, game).Ok?
            && s.checksum != Some(LayoutChecksum(s.className, game).value) ==>
              if StageFor(s.className, game).Err? then
                r.thrown == Some(StageFor(s.className, game).error)
              else
                && r.thrown.None?
                && r.screen.stage == StageFor(s.className, game).value
                && r.screen.generation == s.generation + 1
                && r.screen.trace == s.trace + [StageCreated(s.generation + 1), OnStageReloaded]
                && r.screen.(stage := s.stage, generation := s.generation, trace := s.trace,
                             checksum := s.checksum, lastRefreshCheck := s.lastRefreshCheck) == s
  {
    if !RefreshDue(s, now, isDesktop) then Step(s, None)
    else
      match LayoutChecksum(s.className, game)
      case Err(e) => Step(s, Some(e))
      case Ok(current) =>
        if s.checksum == Some(current) then Step(s.(lastRefreshCheck := now), None)
        else
          var reloaded := ReloadStage(s, game);
          if reloaded.thrown.Some? then reloaded
          else Step(reloaded.screen.(checksum := Some(current), lastRefreshCheck := now), None)
  }

  /**
    A hot reload calls onStageReloaded but never the resize hooks, and it
    happens exactly when the stored checksum is not the file's current one.
   */
  lemma HotReloadSkipsResizeHooks(s: Screen, game: Game, now: int, isDesktop: bool)
    requires Tick(s, game, now, isDesktop).thrown.None?
    ensures var t := Tick(s, game, now, isDesktop).screen.trace;
            |t| >= |s.trace| && t[..|s.trace|] == s.trace
            && BeforeReloadStage !in t[|s.trace|..] && AfterReloadStage !in t[|s.trace|..]
    ensures var t := Tick(s, game, now, isDesktop).screen.trace;
            OnStageReloaded in t[|s.trace|..]
            <==> RefreshDue(s, now, isDesktop) && s.checksum != Some(LayoutChecksum(s.className, game).value)
  {
  }

  /**
    After a check that did not throw, a later check with the layout file
    unchanged does not reload again.
   */
  lemma NoSecondReloadWithoutEdit(s: Screen, game: Game, first: int, second: int)
    requires RefreshDue(s, first, true)
    requires Tick(s, game, first, true).thrown.None?
    ensures var t := Tick(s, game, first, true).screen;
            Tick(t, game, second, true) == Step(if RefreshDue(t, second, true) then t.(lastRefreshCheck := second) else t, None)
  {
  }

  /** Disabling fade-in brings a screen back to the fade-in state it was constructed with, whatever was enabled since. */
  lemma DisableRestoresConstructedState(className: string, resizable: bool, game: Game, now: int, duration: real)
    requires NewScreen(className, resizable, game, now).Ok?
    ensures var s := NewScreen(className, resizable, game, now).value;
            DisableFadeIn(EnableFadeIn(s, duration)) == s
  {
  }

  /**
    Right after a successful show, the layout file's checksum is stored, so a
    refresh check with the file unchanged reloads nothing: at most the check
    time moves.
   */
  lemma ShowThenTickNoReload(s: Screen, game: Game, now: int, isDesktop: bool)
    requires Show(s, game).thrown.None?
    ensures var t := Show(s, game).screen;
            Tick(t, game, now, isDesktop) == Step(if RefreshDue(t, now, isDesktop) then t.(lastRefreshCheck := now) else t, None)
  {
  }

  /** The same after a successful resize, which recomputes the checksum last. */
  lemma ResizeThenTickNoReload(s: Screen, game: Game, newWidth: int, newHeight: int, now: int, isDesktop: bool)
    requires Resize(s, game, newWidth, newHeight).thrown.None?
    requires s.resizable
    ensures var t := Resize(s, game, newWidth, newHeight).screen;
            Tick(t, game, now, isDesktop) == Step(if RefreshDue(t, now, isDesktop) then t.(lastRefreshCheck := now) else t, None)
  {
  }

  /**
    A due refresh check that finds the file changed is a reloadStage followed
    by storing the new checksum and the check time; when the reload throws,
    nothing is stored.
   */
  lemma TickReloadIsReloadStage(s: Screen, game: Game, now: int, isDesktop: bool)
    requires RefreshDue(s, now, isDesktop)
    requires LayoutChecksum(s.className, game).Ok? && s.checksum != Some(LayoutChecksum(s.className, game).value)
    ensures var reloaded := ReloadStage(s, game);
            Tick(s, game, now, isDesktop)
            == if reloaded.thrown.Some? then reloaded
               else Step(reloaded.screen.(checksum := Some(LayoutChecksum(s.className, game).value), lastRefreshCheck := now), None)
  {
  }

  /**
    A resize of a resizable screen and a refresh check that finds the file
    changed install the same stage, count the same generation and store the
    same checksum; the resize only adds its two hooks around the reload.
   */
  lemma HotReloadIsResizeWithoutHooks(s: Screen, game: Game, newWidth: int, newHeight: int, now: int, isDesktop: bool)
    requires s.resizable && RefreshDue(s, now, isDesktop)
    requires LayoutChecksum(s.className, game).Ok? && s.checksum != Some(LayoutChecksum(s.className, game).value)
    requires StageFor(s.className, game).Ok?
    ensures var resized := Resize(s, game, newWidth, newHeight).screen;
            var ticked := Tick(s, game, now, isDesktop).screen;
            && resized.stage == ticked.stage
            && resized.generation == ticked.generation
            && resized.checksum == ticked.checksum
            && resized.trace == s.trace + [BeforeReloadStage] + ticked.trace[|s.trace|..] + [AfterReloadStage]
  {
  }
}

=== FILE: stage_builder.dfy ===
/**
  Assembly of a stage, or of a single group, from a layout file: resolve the
  file, parse it, check that the root model is a group, and build the root's
  children one by one through the registry.
 */
module StageBuilder {
  import opened Results
  import opened LayoutFiles
  import opened Widgets

  const RootGroupName: string := "AbsoluteLayoutRootGroup"

  /** Why a build throws. */
  datatype Failure =
    | Unreadable(path: string)                    // the resolved file cannot be opened
    | MalformedMarkup(path: string, message: string)
    | NoModels(path: string)                      // the parser returned an empty model list
    | RootNotGroup(kind: Kind)                    // the first model is not a group model
    | MissingBuilder(kind: Kind)                  // no builder registered for the model's class
    | WidgetFailure(kind: Kind, message: string)  // the builder itself threw
    | ActorFailed(actorName: string, cause: Failure)
    | StageFailed(cause: Failure)

  /** The failure beneath the wrappers added on the way out of a stage build. */
  function RootCause(f: Failure): Failure {
    match f
    case StageFailed(c) => RootCause(c)
    case ActorFailed(_, c) => RootCause(c)
    case _ => f
  }

  /** What the resolution helper reports at the time of a build. */
  datatype Resolution = Resolution(
    screenWidth: int,
    screenHeight: int,
    positionMultiplier: real,
    gameAreaX: real,
    gameAreaY: real)

  /**
    The collaborators a build calls but whose code is not part of this model:
    the bundled files, the markup parser, the per-widget builders, and the
    group builder's basic-property copy. Parser and builders report failure
    as an exception message.
   */
  datatype Collaborators = Collaborators(
    fs: FileSystem,
    parse: string -> Result<seq<Model>, string>,
    buildActor: (Builder, Model) -> Result<Actor, string>,
    setBasicProperties: (Model, Actor) -> Actor)

  datatype Viewport = ExtendViewport(width: real, height: real) | StretchViewport(width: real, height: real)

  /** An action queued on a stage. */
  datatype Action = FadeIn(duration: real)

  /** A stage: its viewport, the actors added to it, the alpha of its root and its queued actions. */
  datatype Stage = Stage(viewport: Viewport, actors: seq<Actor>, rootAlpha: real, actions: seq<Action>)

  /** The layout file a build for this resolution reads. */
  function LayoutFileFor(res: Resolution, fs: FileSystem, fileName: string): string {
    GetLayoutFile(res.screenWidth, res.screenHeight, fs, fileName)
  }

  /** Open the resolved layout file and parse it into its list of models. */
  function ReadModels(res: Resolution, col: Collaborators, fileName: string): (r: Result<seq<Model>, Failure>)
    ensures r.Err? ==> r.error.Unreadable? || r.error.MalformedMarkup?
    ensures r.Ok? <==> col.fs(LayoutFileFor(res, col.fs, fileName)).Opened?
                       && col.parse(col.fs(LayoutFileFor(res, col.fs, fileName)).contents).Ok?
    ensures r.Ok? ==> r.value == col.parse(col.fs(LayoutFileFor(res, col.fs, fileName)).contents).value
    ensures col.fs(LayoutFileFor(res, col.fs, fileName)).OpenFailed? ==> r == Err(Unreadable(LayoutFileFor(res, col.fs, fileName)))
  {
    var path := LayoutFileFor(res, col.fs, fileName);
    match col.fs(path)
    case OpenFailed(_) => Err(Unreadable(path))
    case Opened(contents) =>
      match col.parse(contents)
      case Err(message) => Err(MalformedMarkup(path, message))
      case Ok(models) => Ok(models)
  }

  /** The first parsed model, cast to a group model. */
  function LoadRootModel(res: Resolution, col: Collaborators, fileName: string): (r: Result<Model, Failure>)
    ensures r.Ok? ==> r.value.kind == Group
    ensures r.Ok? <==> ReadModels(res, col, fileName).Ok?
                       && |ReadModels(res, col, fileName).value| > 0
                       && ReadModels(res, col, fileName).value[0].kind == Group
    ensures r.Ok? ==> r.value == ReadModels(res, col, fileName).value[0]
  {
    var models :- ReadModels(res, col, fileName);
    if |models| == 0 then Err(NoModels(LayoutFileFor(res, col.fs, fileName)))
    else if models[0].kind != Group then Err(RootNotGroup(models[0].kind))
    else Ok(models[0])
  }

  /** Build one model with the builder registered for its own class. */
  function BuildOne(registry: map<Kind, Builder>, buildActor: (Builder, Model) -> Result<Actor, string>, m: Model): (r: Result<Actor, Failure>)
    ensures m.kind !in registry ==> r == Err(MissingBuilder(m.kind))
    ensures m.kind in registry ==> (r.Ok? <==> buildActor(registry[m.kind], m).Ok?)
    ensures m.kind in registry && buildActor(registry[m.kind], m).Err? ==>
              r == Err(WidgetFailure(m.kind, buildActor(registry[m.kind], m).error))
    ensures r.Ok? ==> m.kind in registry && r.value == buildActor(registry[m.kind], m).value
  {
    if m.kind !in registry then Err(MissingBuilder(m.kind))
    else
      match buildActor(registry[m.kind], m)
      case Ok(a) => Ok(a)
      case Err(message) => Err(WidgetFailure(m.kind, message))
  }

  /** All models build. */
  ghost predicate AllBuild(registry: map<Kind, Builder>, buildActor: (Builder, Model) -> Result<Actor, string>, models: seq<Model>) {
    forall i :: 0 <= i < |models| ==> BuildOne(registry, buildActor, models[i]).Ok?
  }

  /** `actors` are the models built one for one, in document order. */
  ghost predicate BuiltInOrder(registry: map<Kind, Builder>, buildActor: (Builder, Model) -> Result<Actor, string>,
                               models: seq<Model>, actors: seq<Actor>) {
    && |actors| == |models|
    && forall i :: 0 <= i < |models| ==> BuildOne(registry, buildActor, models[i]) == Ok(actors[i])
  }

  /**
    The loop over a group's children: build each in turn and stop at the first
    failure, reporting its index.
   */
  function BuildEach(registry: map<Kind, Builder>, buildActor: (Builder, Model) -> Result<Actor, string>, models: seq<Model>): (r: Result<seq<Actor>, nat>)
    ensures r.Ok? ==> BuiltInOrder(registry, buildActor, models, r.value)
    ensures r.Err? ==> r.error < |models|
                       && BuildOne(registry, buildActor, models[r.error]).Err?
                       && forall j :: 0 <= j < r.error ==> BuildOne(registry, buildActor, models[j]).Ok?
    decreases |models|
  {
    if |models| == 0 then Ok([])
    else
      match BuildOne(registry, buildActor, models[0])
      case Err(_) => Err(0)
      case Ok(first) =>
        match BuildEach(registry, buildActor, models[1..])
        case Err(i) => Err(i + 1)
        case Ok(rest) => Ok([first] + rest)
  }

  /** The loop succeeds exactly when every model builds. */
  lemma BuildEachOkIffAllBuild(registry: map<Kind, Builder>, buildActor: (Builder, Model) -> Result<Actor, string>, models: seq<Model>)
    ensures BuildEach(registry, buildActor, models).Ok? <==> AllBuild(registry, buildActor, models)
  {
  }

  /**
    Document order is drawing order: building a concatenation of siblings
    yields the concatenation of the separately built siblings.
   */
  lemma {:induction false} BuildEachAppend(registry: map<Kind, Builder>, buildActor: (Builder, Model) -> Result<Actor, string>,
                                           xs: seq<Model>, ys: seq<Model>)
    ensures BuildEach(registry, buildActor, xs + ys).Ok?
            <==> BuildEach(registry, buildActor, xs).Ok? && BuildEach(registry, buildActor, ys).Ok?
    ensures BuildEach(registry, buildActor, xs + ys).Ok? ==>
            BuildEach(registry, buildActor, xs + ys).value
            == BuildEach(registry, buildActor, xs).value + BuildEach(registry, buildActor, ys).value
    decreases |xs|
  {
    if |xs| == 0 {
      assert xs + ys == ys;
    } else {
      assert (xs + ys)[1..] == xs[1..] + ys;
      assert (xs + ys)[0] == xs[0];
      BuildEachAppend(registry, buildActor, xs[1..], ys);
    }
  }

  /**
    addActorsToStage: every model is built by its registered builder, in
    order; the first failure aborts the loop and is rethrown naming the actor.
   */
  function AddActorsToStage(registry: map<Kind, Builder>, buildActor: (Builder, Model) -> Result<Actor, string>, models: seq<Model>): (r: Result<seq<Actor>, Failure>)
    ensures r.Ok? <==> AllBuild(registry, buildActor, models)
    ensures r.Ok? ==> BuiltInOrder(registry, buildActor, models, r.value)
    ensures r.Err? ==> exists i :: 0 <= i < |models|
                         && (forall j :: 0 <= j < i ==> BuildOne(registry, buildActor, models[j]).Ok?)
                         && BuildOne(registry, buildActor, models[i]).Err?
                         && r.error == ActorFailed(models[i].name, BuildOne(registry, buildActor, models[i]).error)
  {
    match BuildEach(registry, buildActor, models)
    case Ok(actors) => Ok(actors)
    case Err(i) => Err(ActorFailed(models[i].name, BuildOne(registry, buildActor, models[i]).error))
  }

  /** With the registered builders no model is ever without a builder, and each is built by the builder for its kind. */
  lemma RegistryNeverMisses(buildActor: (Builder, Model) -> Result<Actor, string>, m: Model)
    ensures BuildOne(RegisterWidgetBuilders(), buildActor, m).Err? ==>
            BuildOne(RegisterWidgetBuilders(), buildActor, m).error.WidgetFailure?
    ensures BuildOne(RegisterWidgetBuilders(), buildActor, m).Ok? ==>
            exists b :: Builds(b) == m.kind && BuildOne(RegisterWidgetBuilders(), buildActor, m).value == buildActor(b, m).value
  {
  }

  function ViewportFor(keepAspectRatio: bool, width: real, height: real): Viewport {
    if keepAspectRatio then ExtendViewport(width, height) else StretchViewport(width, height)
  }

  /** The wrapper group a stage build adds: fixed name, at the game-area origin. */
  ghost predicate IsRootGroup(a: Actor, res: Resolution) {
    && a.name == Named(RootGroupName)
    && a.geometry.x == res.gameAreaX
    && a.geometry.y == res.gameAreaY
  }

  /**
    build: a stage whose single actor is the named root group holding the root
    model's children, built in order; any failure on the way aborts the whole
    build with a stage failure instead of a partial stage.
   */
  function Build(res: Resolution, col: Collaborators, fileName: string, width: real, height: real, keepAspectRatio: bool): (r: Result<Stage, Failure>)
    ensures r.Err? ==> r.error.StageFailed?
    ensures LoadRootModel(res, col, fileName).Err? ==> r == Err(StageFailed(LoadRootModel(res, col, fileName).error))
    ensures LoadRootModel(res, col, fileName).Ok?
            && AddActorsToStage(RegisterWidgetBuilders(), col.buildActor, LoadRootModel(res, col, fileName).value.children).Err? ==>
              r == Err(StageFailed(AddActorsToStage(RegisterWidgetBuilders(), col.buildActor, LoadRootModel(res, col, fileName).value.children).error))
    ensures r.Ok? <==> LoadRootModel(res, col, fileName).Ok?
                       && AllBuild(RegisterWidgetBuilders(), col.buildActor, LoadRootModel(res, col, fileName).value.children)
    ensures r.Ok? ==> r.value.viewport == (if keepAspectRatio then ExtendViewport(width, height) else StretchViewport(width, height))
    ensures r.Ok? ==> |r.value.actors| == 1 && IsRootGroup(r.value.actors[0], res)
    ensures r.Ok? ==> r.value.actors[0].geometry == Geometry(res.gameAreaX, res.gameAreaY, 0.0, 0.0)
    ensures r.Ok? ==> BuiltInOrder(RegisterWidgetBuilders(), col.buildActor,
                                   LoadRootModel(res, col, fileName).value.children, r.value.actors[0].children)
    ensures r.Ok? ==> r.value.rootAlpha == 1.0 && r.value.actions == []
  {
    match LoadRootModel(res, col, fileName)
    case Err(e) => Err(StageFailed(e))
    case Ok(root) =>
      match AddActorsToStage(RegisterWidgetBuilders(), col.buildActor, root.children)
      case Err(e) => Err(StageFailed(e))
      case Ok(actors) =>
        var rootGroup := Actor(Named(RootGroupName), Geometry(res.gameAreaX, res.gameAreaY, 0.0, 0.0), actors);
        Ok(Stage(ViewportFor(keepAspectRatio, width, height), [rootGroup], 1.0, []))
  }

  /** The aspect-ratio flag changes the viewport and nothing else. */
  lemma AspectRatioOnlyChoosesViewport(res: Resolution, col: Collaborators, fileName: string, width: real, height: real)
    ensures Build(res, col, fileName, width, height, true).Ok? <==> Build(res, col, fileName, width, height, false).Ok?
    ensures Build(res, col, fileName, width, height, true).Ok? ==>
            Build(res, col, fileName, width, height, true).value.actors == Build(res, col, fileName, width, height, false).value.actors
    ensures Build(res, col, fileName, width, height, true).Err? ==>
            Build(res, col, fileName, width, height, true).error == Build(res, col, fileName, width, height, false).error
  {
  }

  function Scaled(g: Geometry, multiplier: real): Geometry {
    Geometry(g.x * multiplier, g.y * multiplier, g.width * multiplier, g.height * multiplier)
  }

  /** updateGroupSizeAndPosition: overwrite the group's geometry with the reference model's, scaled. */
  function UpdateGroupSizeAndPosition(group: Actor, reference: Model, multiplier: real): (r: Actor)
    ensures r.name == group.name && r.children == group.children
    ensures r.geometry.x == reference.geometry.x * multiplier && r.geometry.y == reference.geometry.y * multiplier
    ensures r.geometry.width == reference.geometry.width * multiplier && r.geometry.height == reference.geometry.height * multiplier
  {
    group.(geometry := Scaled(reference.geometry, multiplier))
  }

  /**
    Scaling is a per-build overwrite, not an accumulated transform: applying it
    again changes nothing, and whatever geometry the group had before is lost.
   */
  lemma ScalingDoesNotDrift(g1: Actor, g2: Actor, reference: Model, multiplier: real)
    requires g1.name == g2.name && g1.children == g2.children
    ensures UpdateGroupSizeAndPosition(UpdateGroupSizeAndPosition(g1, reference, multiplier), reference, multiplier)
            == UpdateGroupSizeAndPosition(g1, reference, multiplier)
    ensures UpdateGroupSizeAndPosition(g1, reference, multiplier) == UpdateGroupSizeAndPosition(g2, reference, multiplier)
  {
  }

  /**
    buildGroup: a group carrying the root model's basic properties, positioned
    and sized from the root model times the multiplier, followed by the root's
    children built in order. Failures are thrown as they are, unwrapped.
   */
  function BuildGroup(res: Resolution, col: Collaborators, fileName: string): (r: Result<Actor, Failure>)
    ensures r.Err? ==> RootCause(r.error) == r.error
    ensures r.Err? && LoadRootModel(res, col, fileName).Err? ==> r.error == LoadRootModel(res, col, fileName).error
    ensures r.Err? && LoadRootModel(res, col, fileName).Ok? ==>
              var children := LoadRootModel(res, col, fileName).value.children;
              exists i :: 0 <= i < |children|
                && (forall j :: 0 <= j < i ==> BuildOne(RegisterWidgetBuilders(), col.buildActor, children[j]).Ok?)
                && BuildOne(RegisterWidgetBuilders(), col.buildActor, children[i]).Err?
                && r.error == BuildOne(RegisterWidgetBuilders(), col.buildActor, children[i]).error
    ensures r.Ok? <==> LoadRootModel(res, col, fileName).Ok?
                       && AllBuild(RegisterWidgetBuilders(), col.buildActor, LoadRootModel(res, col, fileName).value.children)
    ensures r.Ok? ==> r.value.geometry == Scaled(LoadRootModel(res, col, fileName).value.geometry, res.positionMultiplier)
    ensures r.Ok? ==>
              var root := LoadRootModel(res, col, fileName).value;
              var basic := col.setBasicProperties(root, EmptyGroup);
              && r.value.name == basic.name
              && |r.value.children| == |basic.children| + |root.children|
              && r.value.children[..|basic.children|] == basic.children
              && BuiltInOrder(RegisterWidgetBuilders(), col.buildActor, root.children, r.value.children[|basic.children|..])
  {
    match LoadRootModel(res, col, fileName)
    case Err(e) => Err(e)
    case Ok(root) =>
      var group := UpdateGroupSizeAndPosition(col.setBasicProperties(root, EmptyGroup), root, res.positionMultiplier);
      match BuildEach(RegisterWidgetBuilders(), col.buildActor, root.children)
      case Err(i) =>
        RegistryNeverMisses(col.buildActor, root.children[i]);
        Err(BuildOne(RegisterWidgetBuilders(), col.buildActor, root.children[i]).error)
      case Ok(actors) =>
        var built := group.(children := group.children + actors);
        assert built.children[|group.children|..] == actors;
        Ok(built)
  }

  /**
    A stage build and a group build of the same file succeed together, put the
    same built children under their group, and fail for the same reason.
   */
  lemma BuildAgreesWithBuildGroup(res: Resolution, col: Collaborators, fileName: string, width: real, height: real, keepAspectRatio: bool)
    ensures Build(res, col, fileName, width, height, keepAspectRatio).Ok? <==> BuildGroup(res, col, fileName).Ok?
    ensures Build(res, col, fileName, width, height, keepAspectRatio).Ok? ==>
            var group := BuildGroup(res, col, fileName).value;
            var children := Build(res, col, fileName, width, height, keepAspectRatio).value.actors[0].children;
            group.children[|group.children| - |children|..] == children
    ensures Build(res, col, fileName, width, height, keepAspectRatio).Err? ==>
            RootCause(Build(res, col, fileName, width, height, keepAspectRatio).error) == BuildGroup(res, col, fileName).error
  {
  }
}

=== FILE: widgets.dfy ===
/**
  The parsed layout tree, the scene nodes built from it, and the registry that
  maps every model kind to the builder written for it.
 */
module Widgets {

  /** The thirteen widget model classes a layout file can contain. */
  datatype Kind =
    | Image | Group | Button | TextButton | Label | SelectBox | CustomWidget
    | ExternalGroup | Slider | TextField | TextArea | CheckBox | ToggleWidget

  /** The thirteen builder classes; their internals are not part of this model. */
  datatype Builder =
    | ImageBuilder | GroupBuilder | ButtonBuilder | TextButtonBuilder | LabelBuilder
    | SelectBoxBuilder | CustomWidgetBuilder | ExternalGroupModelBuilder | SliderBuilder
    | TextFieldBuilder | TextAreaBuilder | CheckBoxBuilder | ToggleWidgetBuilder

  /** The model kind each builder class is written for. */
  function Builds(b: Builder): Kind {
    match b
    case ImageBuilder => Image
    case GroupBuilder => Group
    case ButtonBuilder => Button
    case TextButtonBuilder => TextButton
    case LabelBuilder => Label
    case SelectBoxBuilder => SelectBox
    case CustomWidgetBuilder => CustomWidget
    case ExternalGroupModelBuilder => ExternalGroup
    case SliderBuilder => Slider
    case TextFieldBuilder => TextField
    case TextAreaBuilder => TextArea
    case CheckBoxBuilder => CheckBox
    case ToggleWidgetBuilder => ToggleWidget
  }

  /** Position and size, in design units for a model and in pixels for an actor. */
  datatype Geometry = Geometry(x: real, y: real, width: real, height: real)

  /**
    A parsed widget model. Only group models carry children; for every other
    kind the list is ignored by the pipeline.
   */
  datatype Model = Model(kind: Kind, name: string, geometry: Geometry, children: seq<Model>)

  /** An actor's name; a fresh actor has none. */
  datatype Name = Unnamed | Named(value: string)

  /** A scene node: name, geometry and child actors in drawing order. */
  datatype Actor = Actor(name: Name, geometry: Geometry, children: seq<Actor>)

  /** A freshly constructed group: no name, at the origin, of zero size, empty. */
  const EmptyGroup: Actor := Actor(Unnamed, Geometry(0.0, 0.0, 0.0, 0.0), [])

  /**
    The registration routine's thirteen `builders.put` calls, in source order;
    a map display applies its updates left to right, as the puts do.
   */
  const Registrations: map<Kind, Builder> := map[
    Image := ImageBuilder,
    Group := GroupBuilder,
    Button := ButtonBuilder,
    TextButton := TextButtonBuilder,
    Label := LabelBuilder,
    SelectBox := SelectBoxBuilder,
    CustomWidget := CustomWidgetBuilder,
    ExternalGroup := ExternalGroupModelBuilder,
    Slider := SliderBuilder,
    TextField := TextFieldBuilder,
    TextArea := TextAreaBuilder,
    CheckBox := CheckBoxBuilder,
    ToggleWidget := ToggleWidgetBuilder
  ]

  /** Every kind is registered, with the builder written for that kind. */
  lemma RegistrationsCoverEveryKind()
    ensures forall k :: k in Registrations && Builds(Registrations[k]) == k
  {
    forall k ensures k in Registrations && Builds(Registrations[k]) == k {
      match k
      case Image =>
      case Group =>
      case Button =>
      case TextButton =>
      case Label =>
      case SelectBox =>
      case CustomWidget =>
      case ExternalGroup =>
      case Slider =>
      case TextField =>
      case TextArea =>
      case CheckBox =>
      case ToggleWidget =>
    }
  }

  /**
    registerWidgetBuilders: the registry is total over the thirteen kinds, the
    builder found for a kind is the one written for it, and so no two kinds
    share a builder.
   */
  function RegisterWidgetBuilders(): (registry: map<Kind, Builder>)
    ensures forall k :: k in registry
    ensures forall k :: Builds(registry[k]) == k
    ensures forall k1, k2 :: k1 != k2 ==> registry[k1] != registry[k2]
  {
    RegistrationsCoverEveryKind();
    Registrations
  }
}
